=== FILE: README.md ===
# Investment Sentinel content pipeline, modelled in Dafny

This project models the logic of the Investment Sentinel API (`app.py`, a
Flask service) that is not plumbing. The FinanzAmille routes fetch pages
from a cookie-gated site, and `brief_text` renders a plain-text brief from
the fetched data. The model covers these pieces:

- **Article extraction** (`extract_article_fields`). A page is an abstract
  parsed document: a list of elements in document order, each with a tag,
  its text and the positions of the elements that enclose it.
  - The title is the first `h1` text, falling back to the `title` text.
  - The body comes from the first `article`'s paragraphs. Only when that
    list is empty does it fall back to `main p`, and then to every `p`.
  - The summary is at most the first four period-separated sentences of
    the body.
- **Response screening.** Status 401 or 403, or a final URL that contains
  `login`, means unauthorized. Any other status except 200 is passed
  through as `http_<status>`.
- **Target resolution.** The `url` query argument overrides the path. The
  content path falls back to `FM_CONTENT_PATH` and then to `/corso-1-1`,
  and gets a leading `/` if it has none. The base has its trailing slashes
  stripped and is put in front of root-relative URLs.
- **Routes.** `fm_digest`, `fm_article` and `fm_batch` are modelled as
  functions of the environment, the query arguments and a *fetcher*. The
  fetcher maps a URL to an exception message or to a response made of a
  status, a final URL and a page.
- **Recommendations** (`_mk_recommendations`): two rules, then a default
  advisory.
- **Brief text** (`brief_text`): the line layout, joined with newlines.

Files: `results.dfy` (Option and Result), `text.dfy` (the Python string
operations used: `strip`, `rstrip`, `startswith`, `in`, `split`, `join`,
`str(int)`), `html.dfy`, `extract.dfy`, `fetching.dfy`, `targets.dfy`,
`routes.dfy` and `brief.dfy`.

Some behaviour of `app.py` is easy to misread:

- The login test is a case-sensitive substring test on the whole final URL
  (`Fetching.CapitalisedLoginIsAccepted`).
- The body falls back from the article only when the article has no `p`
  elements at all. An article whose paragraphs are all blank gives an empty
  body (`Extract.BlankArticleGivesEmptyBody`).
- `fm_batch` does not deduplicate its URLs. It gives one record per `url`
  argument, in order.
- A digest line of the brief is `  • <title>  [sentiment: <sentiment>]`.
- The brief has nine fixed lines besides those of its three lists.

## Model

| member | source | states |
|---|---|---|
| Text.Strip | app.py:105 | `str.strip()`: the result has no whitespace at either end, a string already in that shape is left unchanged, and no character is added |
| Text.StripSpec | app.py:105 | the stripped string is a slice of the input with only whitespace on either side, and it is empty exactly when the input is all whitespace |
| Text.TrimEndChar | app.py:18 | `rstrip("/")`: keeps a prefix, removes only `/` characters, and the result does not end in `/` |
| Text.ContainsIffOccurs | app.py:46 | the substring test `"login" in url` holds exactly when the pattern occurs at some position |
| Text.Split | app.py:105 | `split(".")` gives at least one piece, and no piece contains the separator |
| Text.JoinOfSplit | app.py:105 | joining the pieces of a split with the separator gives back the original string |
| Text.SplitOfJoin | app.py:100 | splitting a newline join of newline-free parts gives back the parts |
| Text.SplitAppend | app.py:105 | splitting a string at a separator between two parts gives the pieces of the first part followed by those of the second |
| Text.Decimal | app.py:50 | `str(status)` is a non-empty string of digits with no leading zero |
| Text.DecimalRoundTrip | app.py:50 | reading back the decimal rendering of a status gives that status |
| Html.Find | app.py:84-92 | `find(tag)` gives the position of the first element with that tag, or nothing when no element has it |
| Html.Paragraphs | app.py:94-97 | the texts of the `p` elements in a scope: empty exactly when the scope has no `p`, every text is that of an in-scope `p`, and every text of an in-scope `p` is held |
| Html.ParagraphsInOrder | app.py:94-98 | the texts follow the selected positions one for one and in document order, so repeated texts are all kept; the positions are exactly the in-scope `p` elements, in increasing order |
| Extract.Title | app.py:83-88 | the first `h1`'s text when non-empty; otherwise the first `title`'s text when non-empty; otherwise empty |
| Extract.BodyTexts | app.py:91-98 | every text chosen for the body is the text of some `p` element |
| Extract.NonEmpty | app.py:100 | keeps the non-empty texts and no others, never lengthening the list |
| Extract.NonEmptyAppend | app.py:100 | filtering two lists one after the other keeps the first list's non-empty texts and then the second's, in order with repeats |
| Extract.NonEmptyOne | app.py:100 | a single text is kept exactly when it is non-empty |
| Extract.NonEmptyNoneIffAllEmpty | app.py:100 | nothing is kept exactly when every text is empty |
| Extract.Body | app.py:100 | the body is empty exactly when every chosen text is empty; for a non-empty body whose chosen texts hold no newline, splitting it at newlines gives back exactly the non-empty texts, in order |
| Extract.ArticleParagraphsWin | app.py:92-95 | when the first `article` holds a `p`, the body texts are that article's paragraphs |
| Extract.BlankArticleGivesEmptyBody | app.py:93-100 | an article whose paragraphs are all blank gives an empty body and summary, with no fallback |
| Extract.MainFallback | app.py:95-97 | with no article paragraphs, the `main p` paragraphs are used when there are any |
| Extract.PageFallback | app.py:95-97 | with neither article nor `main` paragraphs, every `p` of the page is used |
| Extract.NoParagraphsGivesEmptyBody | app.py:91-100 | a page without `p` elements has an empty body |
| Extract.BodyLines | app.py:100 | for a non-empty body whose texts hold no newline, the body's lines are exactly the non-empty chosen texts, so none is empty |
| Extract.Clean | app.py:105 | every kept piece is non-empty and stripped |
| Extract.CleanAppend | app.py:105 | cleaning two lists of pieces one after the other cleans the first and then the second |
| Extract.CleanOne | app.py:105 | a single piece is kept, stripped, exactly when its stripped form is non-empty |
| Extract.CleanKeepsOut | app.py:105 | a character absent from the pieces is absent from the cleaned pieces |
| Extract.Sentences | app.py:105 | every sentence is non-empty, stripped and free of periods |
| Extract.SentencesAppend | app.py:105 | the sentences of `a + "." + b` are those of `a` followed by those of `b` |
| Extract.SentencesOfPiece | app.py:105 | text without a period is one sentence, its stripped form, unless that is empty |
| Extract.Take | app.py:106 | `xs[:n]` is a prefix of `xs`, of length `n` when `xs` is at least that long and the whole of `xs` otherwise |
| Extract.Summary | app.py:103-106 | an empty body gives an empty summary; the summary is empty exactly when the body has no sentence; otherwise it ends in a period |
| Extract.SentencesOfJoined | app.py:105-106 | joining sentences with ". " and adding "." reads back as the same sentences |
| Extract.SummaryRoundTrip | app.py:103-106 | the sentences of the summary are exactly the first (at most four) sentences of the body |
| Extract.SummaryKeepsFirstFour | app.py:106 | a body with four or more sentences is summarised by exactly its first four, followed by a period |
| Extract.SummaryIdempotent | app.py:103-106 | summarising a summary gives it back |
| Extract.ExtractFields | app.py:79-108 | the title, body and summary are those of the page and its body; so the summary is empty exactly when the body has no sentence, ends in a period otherwise, and its sentences are the body's first four (or all, if fewer) |
| Fetching.Classify | app.py:46-50 | unauthorized exactly on 401, 403 or "login" in the final URL; this check comes first; otherwise a non-200 status is passed through; accepted exactly on 200 without "login" |
| Fetching.LoginAnywhereIsDenied | app.py:46 | a final URL with "login" anywhere in it is unauthorized, whatever the status |
| Fetching.CapitalisedLoginIsAccepted | app.py:123 | the test is case-sensitive: status 200 with final URL "/Login" is accepted |
| Fetching.HttpErrorNamesStatus | app.py:50 | the `http_<status>` error text names the status the reply carries |
| Fetching.Screen | app.py:123-126 | accepted exactly when the response is; otherwise the `unauthorized` error exactly on 401, 403 or a "login" final URL, and `http_<status>` with the response status otherwise, each with the fetched and final URLs; the answer is 401 when unauthorized and the response status otherwise, never 200 |
| Targets.Base | app.py:18 | the base is FM_BASE_URL (or the default) with all trailing slashes removed |
| Targets.DefaultBaseKept | app.py:115 | with FM_BASE_URL unset, the base is `https://www.finanzamille.com` |
| Targets.Rooted | app.py:30-31 | the path gets a leading "/" only when it lacks one |
| Targets.ContentPath | app.py:20-29 | the `path` argument if given, else FM_CONTENT_PATH if set and non-empty, else `/corso-1-1` |
| Targets.DigestTarget | app.py:26-32 | an explicit `url` is used verbatim; otherwise the target is the base followed by a path that starts with "/" |
| Targets.UrlOverridesPath | app.py:26-27 | with a `url` argument, the `path` argument has no effect |
| Targets.Resolve | app.py:119-120 | a root-relative URL gets the base in front: the result starts with the base and is the base followed by the URL; the result is the URL unchanged exactly when the URL is not root-relative or the base is empty; with a non-empty base that is not root-relative, the result is never root-relative |
| Targets.ResolveIdempotent | app.py:150 | resolving twice is the same as resolving once, when the base is not root-relative |
| Targets.DigestTargetIsResolvedPath | app.py:29-32 | with no `url`, the digest target is the resolved rooted content path |
| Routes.CapturedTitle | app.py:53-54 | the digest title is the capture with surrounding whitespace stripped, or empty when the regex does not match |
| Routes.Digest | app.py:40-62 | a raised fetch answers `request_error` with the target; otherwise success exactly when the response is accepted, carrying the final URL, the body length and the title |
| Routes.DigestStatus | app.py:43-50 | `fm_digest` answers 502 on a raised fetch, 401 when unauthorized, and otherwise the response status |
| Routes.Article | app.py:116-136 | a missing or empty `url` answers `missing url`; a raised fetch is not caught; success exactly when the response is accepted, with the resolved URL, the final URL, the extracted title and summary and the body length; a refused response fails with the screening error (unauthorized or `http_<status>`) and both URLs |
| Routes.ArticleNeedsUrl | app.py:117-118 | a missing `url` answers 400 whatever the fetcher would return, so nothing is fetched |
| Routes.BatchItem | app.py:150-159 | the record's URL is the resolved input; it is ok exactly when the fetch gave status 200 without "login" in the final URL, with the extracted title and summary; a refused response is recorded with its status and final URL; a raised fetch becomes an error record with its message |
| Routes.Batch | app.py:144-161 | no URLs answer 400; otherwise one record per input URL in input order, duplicates kept, and the reply is a success |
| Routes.BatchItemMatchesArticle | app.py:122-155 | for a non-empty URL, a batch record is ok exactly when `fm_article` succeeds for it, with the same title and summary, so a raised fetch fails both; a refusal other than 401, 403 or a "login" final URL answers `fm_article` with the status the record carries |
| Brief.AnyNegativeEnergy | app.py:184 | holds exactly when some digest item has sentiment "negative" and topic "energy" |
| Brief.AnyFed | app.py:186 | holds exactly when some news item is tagged "fed" |
| Brief.Recommendations | app.py:181-190 | the energy advice appears exactly when its rule fires, and the rates advice exactly when its rule fires, after the energy advice; the default appears exactly when neither fires; the length is 1 or 2 |
| Brief.StubBrokerLine | app.py:229 | with the broker stub's `connected=False`, the brief's broker line reads `connected=False`, as Python renders the boolean |
| Brief.StubNewsAlwaysWarnsOnRates | app.py:169-172 | with the stub news scan, the rates advice always fires and the default never appears |
| Brief.NewsScan | app.py:164-173 | the region and window are the query arguments, defaulting to "us" and "6h"; the stub has two items, one tagged "fed" |
| Brief.Lines | app.py:215-234 | nine fixed lines plus one per digest item, news item and recommendation; the header, section titles and blank separators sit at fixed offsets, and each list's lines sit in order in its section |
| Brief.PlainText | app.py:235 | when no field holds a newline, splitting the text at newlines gives back exactly the lines |

## Left out

- Flask routing, `jsonify`, `Response`, the `/health` route and `app.run`:
  framework plumbing. Environment variables and query arguments are
  parameters (`Targets.Env`, `Option<string>` arguments).
- The HTTP request itself (`requests.get` in `fm_digest` and `fm_fetch`):
  network I/O. This includes the cookie, the user-agent and accept
  headers, the 25-second timeout and redirect following. The fetcher
  parameter stands for all of it, and its result is a raised message or a
  response.
- HTML parsing with BeautifulSoup and the whitespace handling of
  `get_text`: these belong to a foreign library. The parsed document is
  given, and each element carries its text already gathered. Both the
  `strip=True` and the `" ", strip=True` forms are one `text` field.
- The `<title>` regex of `fm_digest`: its capture is part of the page value
  (`Fetching.Page.titleCapture`). Only the stripping after it is modelled.
- The JSON reply when `fm_article` lets a fetch exception escape: the
  framework answers 500 with its own error page. The model records this as
  `Uncaught` with the exception message.
- Exceptions raised inside `extract_article_fields`, which `fm_batch` would
  also catch: the extraction model is total.
- `brief_run`: it calls `finanzamille_digest`, which is not defined
  anywhere in `app.py`, so it cannot run as written. Its timestamp also
  comes from the wall clock. The brief text is therefore modelled over a
  given payload (`Brief.Payload`), with the timestamp as a field.
- Missing dictionary keys in `brief_text` and `_mk_recommendations`: every
  digest item is taken to have a title, a sentiment and a list of topics. A
  missing `tags` list is modelled as empty.
- The fetcher answers every request for a URL the same way. `fm_batch`
  issues a separate request for each duplicate URL, and those requests can
  answer differently; the model gives duplicate batch URLs identical
  records, and `Routes.BatchItemMatchesArticle` compares the two routes on
  identical responses.
- `news_scan` and `alpaca_health` are stubs. They appear only as fixed data
  (`Brief.NewsScan`, `Brief.BrokerConnected`).

=== FILE: brief.dfy ===
/** The brief: the rule-based recommendations (`_mk_recommendations`,
    app.py:181-190) and the plain-text rendering of `brief_text`
    (app.py:212-236), over an already assembled payload. The news and broker
    stubs (app.py:164-178) supply fixed data. */
module Brief {
  import opened Results
  import opened Text

  /** A digest entry as the rules and the text read it. */
  datatype DigestItem = DigestItem(title: string, sentiment: string, topics: seq<string>)

  /** A news entry. */
  datatype NewsItem = NewsItem(headline: string, tags: seq<string>, impact: string)

  /** A news scan: the region and window it covers, and its items. */
  datatype News = News(region: string, window: string, items: seq<NewsItem>)

  /** What `brief_text` renders: the generation stamp, the digest items, the
      news scan, the broker's connection flag and the recommendations. */
  datatype Payload = Payload(
    generatedAt: string,
    digest: seq<DigestItem>,
    news: News,
    connected: bool,
    recommendations: seq<string>)

  const EnergyAdvice := "Energia debole: valuta stop-loss pi\U{F9} stretti su titoli energy."
  const RatesAdvice := "Tassi: profilo prudente; evita nuova leva finch\U{E9} il quadro sui rendimenti non migliora."
  const CalmAdvice := "Nessuna urgenza. Mantieni impostazione conservativa."

  /** The energy rule's test on one item: negative sentiment about energy. */
  predicate NegativeEnergy(it: DigestItem) {
    it.sentiment == "negative" && "energy" in it.topics
  }

  /** Some digest item is negative about energy, searched from the front. */
  predicate AnyNegativeEnergy(items: seq<DigestItem>)
    ensures AnyNegativeEnergy(items) <==> exists i :: 0 <= i < |items| && NegativeEnergy(items[i])
  {
    if items == [] then false
    else NegativeEnergy(items[0]) || AnyNegativeEnergy(items[1..])
  }

  /** Some news item is tagged "fed", searched from the front. */
  predicate AnyFed(items: seq<NewsItem>)
    ensures AnyFed(items) <==> exists i :: 0 <= i < |items| && "fed" in items[i].tags
  {
    if items == [] then false
    else "fed" in items[0].tags || AnyFed(items[1..])
  }

  /** `_mk_recommendations`: the energy advice if its rule fires, then the
      rates advice if its rule fires, and the calm advice alone if neither does. */
  function Recommendations(digest: seq<DigestItem>, news: News): (r: seq<string>)
    ensures EnergyAdvice in r <==> exists i :: 0 <= i < |digest| && NegativeEnergy(digest[i])
    ensures RatesAdvice in r <==> exists i :: 0 <= i < |news.items| && "fed" in news.items[i].tags
    ensures CalmAdvice in r <==> !(EnergyAdvice in r) && !(RatesAdvice in r)
    ensures 1 <= |r| <= 2
    ensures |r| == 2 ==> r == [EnergyAdvice, RatesAdvice]
  {
    var energy := if AnyNegativeEnergy(digest) then [EnergyAdvice] else [];
    var rates := if AnyFed(news.items) then [RatesAdvice] else [];
    var fired := energy + rates;
    if fired == [] then [CalmAdvice] else fired
  }

  /** The news stub: the region and window asked for, defaulting to "us" and
      "6h", and two fixed items, one of them tagged "fed". */
  function NewsScan(region: Option<string>, window: Option<string>): (r: News)
    ensures region.Some? ==> r.region == region.value
    ensures window.Some? ==> r.window == window.value
    ensures region.None? ==> r.region == "us"
    ensures window.None? ==> r.window == "6h"
    ensures |r.items| == 2 && AnyFed(r.items)
  {
    News(region.GetOr("us"), window.GetOr("6h"), [
      NewsItem("Fed officials: 'higher for longer' sul tavolo", ["rates", "fed"], "medium"),
      NewsItem("NASDAQ green nel pomeriggio", ["tech", "equities"], "low")
    ])
  }

  /** The broker stub reports no connection. */
  const BrokerConnected := false

  /** With the broker stub, the brief's broker line reads `connected=False`,
      Python's rendering of the boolean. */
  lemma StubBrokerLine(p: Payload)
    requires p.connected == BrokerConnected
    ensures Lines(p)[6 + |p.digest| + |p.news.items|] == "\U{2014} Broker: Alpaca connected=False"
  {
  }

  /** With the stub news scan the rates advice always fires, so the calm
      advice never appears. */
  lemma StubNewsAlwaysWarnsOnRates(digest: seq<DigestItem>, region: Option<string>, window: Option<string>)
    ensures RatesAdvice in Recommendations(digest, NewsScan(region, window))
    ensures CalmAdvice !in Recommendations(digest, NewsScan(region, window))
  {
    var news := NewsScan(region, window);
    assert "fed" in news.items[0].tags;
  }

  const Bullet := "  \U{2022} "

  /** Python's rendering of a boolean. */
  function ShowBool(b: bool): string {
    if b then "True" else "False"
  }

  /** One bullet line per string, in order. */
  function Bullets(xs: seq<string>): seq<string> {
    seq(|xs|, i requires 0 <= i < |xs| => Bullet + xs[i])
  }

  function DigestLine(it: DigestItem): string {
    Bullet + it.title + "  [sentiment: " + it.sentiment + "]"
  }

  function NewsLine(it: NewsItem): string {
    Bullet + it.headline + "  [impact: " + it.impact + "]"
  }

  function DigestLines(items: seq<DigestItem>): seq<string> {
    seq(|items|, i requires 0 <= i < |items| => DigestLine(items[i]))
  }

  function NewsLines(items: seq<NewsItem>): seq<string> {
    seq(|items|, i requires 0 <= i < |items| => NewsLine(items[i]))
  }

  /** The lines of the brief: nine fixed lines (the heading, four section
      headings and blank separators) plus one line per digest item, news item
      and recommendation, each section's lines where the section puts them. */
  function Lines(p: Payload): (lines: seq<string>)
    ensures var d := |p.digest|;
      var n := |p.news.items|;
      var m := |p.recommendations|;
      && |lines| == 9 + d + n + m
      && lines[0] == "[Investment Sentinel] Brief \U{2013} " + p.generatedAt
      && lines[2] == "\U{2014} FinanzAmille (ultimi):"
      && lines[4 + d] == "\U{2014} News scan (" + p.news.region + ", " + p.news.window + "):"
      && lines[6 + d + n] == "\U{2014} Broker: Alpaca connected=" + ShowBool(p.connected)
      && lines[8 + d + n] == "\U{2014} Azioni consigliate:"
      && lines[1] == "" && lines[3 + d] == "" && lines[5 + d + n] == "" && lines[7 + d + n] == ""
      && (forall i :: 0 <= i < d ==> lines[3 + i] == DigestLine(p.digest[i]))
      && (forall i :: 0 <= i < n ==> lines[5 + d + i] == NewsLine(p.news.items[i]))
      && (forall i :: 0 <= i < m ==> lines[9 + d + n + i] == Bullet + p.recommendations[i])
  {
    Head(p) + DigestLines(p.digest) + Middle(p) + NewsLines(p.news.items) + Tail(p) + Bullets(p.recommendations)
  }

  /** `brief_text`: the lines joined by newlines. When no field holds a
      newline, splitting the text at newlines gives back exactly the lines. */
  function PlainText(p: Payload): (r: string)
    ensures SingleLineFields(p) ==> Split(r, '\n') == Lines(p)
  {
    LinesJoinSplit(p);
    Join(Lines(p), "\n")
  }

  /** No field of the payload holds a newline. */
  predicate SingleLineFields(p: Payload) {
    && '\n' !in p.generatedAt && '\n' !in p.news.region && '\n' !in p.news.window
    && (forall i :: 0 <= i < |p.digest| ==> '\n' !in p.digest[i].title && '\n' !in p.digest[i].sentiment)
    && (forall i :: 0 <= i < |p.news.items| ==> '\n' !in p.news.items[i].headline && '\n' !in p.news.items[i].impact)
    && (forall i :: 0 <= i < |p.recommendations| ==> '\n' !in p.recommendations[i])
  }

  /** None of the lines holds a newline. */
  ghost predicate SingleLines(lines: seq<string>) {
    forall k :: 0 <= k < |lines| ==> '\n' !in lines[k]
  }

  lemma SingleLinesAppend(a: seq<string>, b: seq<string>)
    requires SingleLines(a) && SingleLines(b)
    ensures SingleLines(a + b)
  {
    forall k | 0 <= k < |a + b| ensures '\n' !in (a + b)[k] {
      if k < |a| { assert (a + b)[k] == a[k]; } else { assert (a + b)[k] == b[k - |a|]; }
    }
  }

  /** The brief's opening lines, up to the digest heading. */
  function Head(p: Payload): seq<string> {
    ["[Investment Sentinel] Brief \U{2013} " + p.generatedAt, "", "\U{2014} FinanzAmille (ultimi):"]
  }

  /** The separator and heading between the digest and the news. */
  function Middle(p: Payload): seq<string> {
    ["", "\U{2014} News scan (" + p.news.region + ", " + p.news.window + "):"]
  }

  /** The broker line and the recommendations heading, with their separators. */
  function Tail(p: Payload): seq<string> {
    ["", "\U{2014} Broker: Alpaca connected=" + ShowBool(p.connected), "", "\U{2014} Azioni consigliate:"]
  }

  lemma DigestLinesSingle(items: seq<DigestItem>)
    requires forall i :: 0 <= i < |items| ==> '\n' !in items[i].title && '\n' !in items[i].sentiment
    ensures SingleLines(DigestLines(items))
  {
    var lines := DigestLines(items);
    forall k | 0 <= k < |lines| ensures '\n' !in lines[k] {
      assert lines[k] == DigestLine(items[k]);
    }
  }

  lemma NewsLinesSingle(items: seq<NewsItem>)
    requires forall i :: 0 <= i < |items| ==> '\n' !in items[i].headline && '\n' !in items[i].impact
    ensures SingleLines(NewsLines(items))
  {
    var lines := NewsLines(items);
    forall k | 0 <= k < |lines| ensures '\n' !in lines[k] {
      assert lines[k] == NewsLine(items[k]);
    }
  }

  lemma BulletsSingle(xs: seq<string>)
    requires forall i :: 0 <= i < |xs| ==> '\n' !in xs[i]
    ensures SingleLines(Bullets(xs))
  {
    var lines := Bullets(xs);
    forall k | 0 <= k < |lines| ensures '\n' !in lines[k] {
      assert lines[k] == Bullet + xs[k];
    }
  }

  /** A character in neither part is not in their concatenation. */
  lemma NotInConcat(c: char, a: string, b: string)
    requires c !in a && c !in b
    ensures c !in a + b
  {
    forall k | 0 <= k < |a + b| ensures (a + b)[k] != c {
      if k < |a| { assert (a + b)[k] == a[k]; } else { assert (a + b)[k] == b[k - |a|]; }
    }
  }

  lemma HeadSingle(p: Payload)
    requires '\n' !in p.generatedAt
    ensures SingleLines(Head(p))
  {
    NotInConcat('\n', "[Investment Sentinel] Brief \U{2013} ", p.generatedAt);
  }

  lemma MiddleSingle(p: Payload)
    requires '\n' !in p.news.region && '\n' !in p.news.window
    ensures SingleLines(Middle(p))
  {
    NotInConcat('\n', "\U{2014} News scan (", p.news.region);
    NotInConcat('\n', "\U{2014} News scan (" + p.news.region, ", ");
    NotInConcat('\n', "\U{2014} News scan (" + p.news.region + ", ", p.news.window);
    NotInConcat('\n', "\U{2014} News scan (" + p.news.region + ", " + p.news.window, "):");
  }

  lemma TailSingle(p: Payload)
    ensures SingleLines(Tail(p))
  {
    NotInConcat('\n', "\U{2014} Broker: Alpaca connected=", ShowBool(p.connected));
  }

  /** The fixed lines hold no newline when the fields they show hold none. */
  lemma FixedLinesSingle(p: Payload)
    requires SingleLineFields(p)
    ensures SingleLines(Head(p)) && SingleLines(Middle(p)) && SingleLines(Tail(p))
  {
    HeadSingle(p);
    MiddleSingle(p);
    TailSingle(p);
  }

  /** When no field holds a newline, no line of the brief does. */
  lemma LinesSingle(p: Payload)
    requires SingleLineFields(p)
    ensures SingleLines(Lines(p))
  {
    var digest := DigestLines(p.digest);
    var news := NewsLines(p.news.items);
    var recs := Bullets(p.recommendations);
    FixedLinesSingle(p);
    DigestLinesSingle(p.digest);
    NewsLinesSingle(p.news.items);
    BulletsSingle(p.recommendations);
    SingleLinesAppend(Head(p), digest);
    SingleLinesAppend(Head(p) + digest, Middle(p));
    SingleLinesAppend(Head(p) + digest + Middle(p), news);
    SingleLinesAppend(Head(p) + digest + Middle(p) + news, Tail(p));
    SingleLinesAppend(Head(p) + digest + Middle(p) + news + Tail(p), recs);
    assert Lines(p) == Head(p) + digest + Middle(p) + news + Tail(p) + recs;
  }

  /** When no field holds a newline, the newline join of the lines splits
      back into them. */
  lemma LinesJoinSplit(p: Payload)
    ensures SingleLineFields(p) ==> Split(Join(Lines(p), "\n"), '\n') == Lines(p)
  {
    if SingleLineFields(p) {
      LinesSingle(p);
      SplitOfJoin(Lines(p), '\n');
    }
  }
}

=== FILE: extract.dfy ===
/** `extract_article_fields`: the title, body text and short summary the
    service reads off a parsed article page (app.py:79-108). */
module Extract {
  import opened Results
  import opened Text
  import opened Html

  /** What the extractor returns for one page. */
  datatype Fields = Fields(title: string, body: string, summary: string)

  /** The first element tagged `tag` exists and has non-empty text. */
  ghost predicate UsableFirst(doc: Document, tag: string) {
    exists i :: IsFirst(doc, tag, i) && doc[i].text != ""
  }

  /** The page title: the first `h1`'s text when non-empty, else the first
      `title` element's text when non-empty, else empty. */
  function Title(doc: Document): (r: string)
    ensures forall i :: IsFirst(doc, "h1", i) && doc[i].text != "" ==> r == doc[i].text
    ensures !UsableFirst(doc, "h1") ==>
      forall j :: IsFirst(doc, "title", j) && doc[j].text != "" ==> r == doc[j].text
    ensures !UsableFirst(doc, "h1") && !UsableFirst(doc, "title") ==> r == ""
  {
    var h1 := Find(doc, "h1");
    if h1.Some? && doc[h1.value].text != "" then doc[h1.value].text
    else
      var title := Find(doc, "title");
      if title.Some? && doc[title.value].text != "" then doc[title.value].text
      else ""
  }

  /** The paragraph texts the body is made of: those of the first `article`;
      only when that list is empty, those under a `main` element; and only
      when that is empty too, every paragraph of the page. */
  function BodyTexts(doc: Document): (r: seq<string>)
    ensures forall k :: 0 <= k < |r| ==> exists i :: 0 <= i < |doc| && doc[i].tag == "p" && doc[i].text == r[k]
  {
    var article := Find(doc, "article");
    var inArticle := if article.Some? then Paragraphs(doc, Within(article.value)) else [];
    if inArticle != [] then inArticle
    else
      var inMain := Paragraphs(doc, Under("main"));
      if inMain != [] then inMain else Paragraphs(doc, Anywhere)
  }

  /** The non-empty texts of `ts`, in order. */
  function NonEmpty(ts: seq<string>): (r: seq<string>)
    ensures forall k :: 0 <= k < |r| ==> r[k] != []
    ensures forall t :: t in r <==> t in ts && t != []
    ensures |r| <= |ts|
  {
    if ts == [] then []
    else (if ts[0] == [] then [] else [ts[0]]) + NonEmpty(ts[1..])
  }

  /** Keeping the non-empty texts of two lists, one after the other, keeps
      those of the first and then those of the second: order and repeats survive. */
  lemma {:induction false} NonEmptyAppend(a: seq<string>, b: seq<string>)
    ensures NonEmpty(a + b) == NonEmpty(a) + NonEmpty(b)
    decreases |a|
  {
    if a == [] {
      assert a + b == b;
    } else {
      assert (a + b)[0] == a[0];
      assert (a + b)[1..] == a[1..] + b;
      NonEmptyAppend(a[1..], b);
    }
  }

  /** A single text is kept exactly when it is non-empty. */
  lemma NonEmptyOne(t: string)
    ensures NonEmpty([t]) == if t == [] then [] else [t]
  {
    assert [t][1..] == [];
  }

  /** The kept texts are empty exactly when every text is. */
  lemma {:induction false} NonEmptyNoneIffAllEmpty(ts: seq<string>)
    ensures NonEmpty(ts) == [] <==> forall k :: 0 <= k < |ts| ==> ts[k] == []
  {
    if NonEmpty(ts) == [] {
      forall k | 0 <= k < |ts| ensures ts[k] == [] {
        assert ts[k] in ts;
      }
    } else {
      var r := NonEmpty(ts);
      assert r[0] in r;
    }
  }

  /** Joining the non-empty texts by newlines: empty exactly when every text
      is empty, and, when no text holds a newline, its lines are exactly the
      non-empty texts. */
  lemma BodyJoin(ts: seq<string>)
    ensures Join(NonEmpty(ts), "\n") == [] <==> forall k :: 0 <= k < |ts| ==> ts[k] == []
    ensures (forall k :: 0 <= k < |ts| ==> '\n' !in ts[k]) && Join(NonEmpty(ts), "\n") != [] ==>
      Split(Join(NonEmpty(ts), "\n"), '\n') == NonEmpty(ts)
  {
    var lines := NonEmpty(ts);
    NonEmptyNoneIffAllEmpty(ts);
    if lines != [] {
      JoinStartsWithFirst(lines, "\n");
      if forall k :: 0 <= k < |ts| ==> '\n' !in ts[k] {
        forall k | 0 <= k < |lines| ensures '\n' !in lines[k] {
          assert lines[k] in ts;
        }
        SplitOfJoin(lines, '\n');
      }
    }
  }

  /** The body: the non-empty paragraph texts joined by newlines. It is empty
      exactly when every chosen text is, and when no chosen text holds a
      newline its lines are exactly the non-empty texts, in order. */
  function Body(doc: Document): (r: string)
    ensures r == [] <==> forall k :: 0 <= k < |BodyTexts(doc)| ==> BodyTexts(doc)[k] == []
    ensures (forall k :: 0 <= k < |BodyTexts(doc)| ==> '\n' !in BodyTexts(doc)[k]) && r != [] ==>
      Split(r, '\n') == NonEmpty(BodyTexts(doc))
  {
    BodyJoin(BodyTexts(doc));
    Join(NonEmpty(BodyTexts(doc)), "\n")
  }

  /** Python's `[s.strip() for s in pieces if s.strip()]`. */
  function Clean(pieces: seq<string>): (r: seq<string>)
    ensures |r| <= |pieces|
    ensures forall k :: 0 <= k < |r| ==> r[k] != [] && Stripped(r[k])
  {
    if pieces == [] then []
    else
      var s := Strip(pieces[0]);
      (if s == [] then [] else [s]) + Clean(pieces[1..])
  }

  /** Cleaning two lists of pieces, one after the other, cleans the first and
      then the second: order and repeats survive. */
  lemma {:induction false} CleanAppend(a: seq<string>, b: seq<string>)
    ensures Clean(a + b) == Clean(a) + Clean(b)
    decreases |a|
  {
    if a == [] {
      assert a + b == b;
    } else {
      CleanAppend(a[1..], b);
      CleanAppendStep(a, b);
    }
  }

  /** The step of `CleanAppend`: the first piece of `a` comes first either way. */
  lemma CleanAppendStep(a: seq<string>, b: seq<string>)
    requires a != []
    requires Clean(a[1..] + b) == Clean(a[1..]) + Clean(b)
    ensures Clean(a + b) == Clean(a) + Clean(b)
  {
    var ab := a + b;
    DropAppend(a, b);
    var x := Strip(a[0]);
    var head: seq<string> := if x == [] then [] else [x];
    calc {
      Clean(ab);
      head + Clean(a[1..] + b);
      head + (Clean(a[1..]) + Clean(b));
      { AppendAssoc(head, Clean(a[1..]), Clean(b)); }
      (head + Clean(a[1..])) + Clean(b);
      Clean(a) + Clean(b);
    }
  }

  /** A single piece is kept, stripped, exactly when it is not blank. */
  lemma CleanOne(p: string)
    ensures Clean([p]) == if Strip(p) == [] then [] else [Strip(p)]
  {
    assert [p][1..] == [];
  }

  /** A character none of the pieces holds is in none of the cleaned pieces. */
  lemma {:induction false} CleanKeepsOut(pieces: seq<string>, c: char)
    requires forall j :: 0 <= j < |pieces| ==> c !in pieces[j]
    ensures forall k :: 0 <= k < |Clean(pieces)| ==> c !in Clean(pieces)[k]
    decreases |pieces|
  {
    if pieces != [] {
      CleanKeepsOut(pieces[1..], c);
    }
  }

  /** A sentence as the summary sees it: non-empty, stripped, without a period. */
  predicate IsSentence(s: string) {
    s != [] && Stripped(s) && '.' !in s
  }

  /** The sentences of a text: its period-separated pieces, stripped, blank ones dropped. */
  function Sentences(text: string): (r: seq<string>)
    ensures forall k :: 0 <= k < |r| ==> IsSentence(r[k])
  {
    CleanKeepsOut(Split(text, '.'), '.');
    Clean(Split(text, '.'))
  }

  /** Python's `xs[:n]`. */
  function Take<T>(xs: seq<T>, n: nat): (r: seq<T>)
    ensures |r| <= n && |r| <= |xs| && r == xs[..|r|]
    ensures |r| == if |xs| <= n then |xs| else n
  {
    if |xs| <= n then xs else xs[..n]
  }

  /** The heuristic summary: at most the first four sentences of the body,
      joined by ". ", with a closing period when there is any sentence. */
  function Summary(body: string): (r: string)
    ensures body == [] ==> r == []
    ensures r == [] <==> Sentences(body) == []
    ensures r != [] ==> r[|r| - 1] == '.'
  {
    if body == [] then []
    else
      var kept := Take(Sentences(body), 4);
      Join(kept, ". ") + (if kept != [] then "." else "")
  }

  /** `extract_article_fields` on a parsed page. */
  function ExtractFields(doc: Document): (f: Fields)
    ensures f.title == Title(doc) && f.body == Body(doc)
    ensures f.summary == [] <==> Sentences(f.body) == []
    ensures Sentences(f.summary) == Take(Sentences(f.body), 4)
    ensures f.summary == Summary(f.body)
  {
    var body := Body(doc);
    SummaryRoundTrip(body);
    Fields(Title(doc), body, Summary(body))
  }

  // ---- Body selection -------------------------------------------------------

  /** No paragraph sits inside the first `article` (or there is no `article`). */
  ghost predicate NoArticleParagraphs(doc: Document) {
    forall a, i :: IsFirst(doc, "article", a) ==> !Selected(doc, Within(a), i)
  }

  /** When the first `article` holds a paragraph, the body is taken from the
      article's paragraphs alone, whatever else the page holds. */
  lemma ArticleParagraphsWin(doc: Document, a: nat, i: nat)
    requires IsFirst(doc, "article", a) && Selected(doc, Within(a), i)
    ensures BodyTexts(doc) == Paragraphs(doc, Within(a))
  {
    assert Find(doc, "article") == Some(a);
    assert Paragraphs(doc, Within(a)) != [];
  }

  /** An article whose paragraphs are all blank gives an empty body and an
      empty summary: it does not fall back to other paragraphs. */
  lemma BlankArticleGivesEmptyBody(doc: Document, a: nat, i: nat)
    requires IsFirst(doc, "article", a) && Selected(doc, Within(a), i)
    requires forall j :: Selected(doc, Within(a), j) ==> doc[j].text == []
    ensures Body(doc) == [] && Summary(Body(doc)) == []
  {
    ArticleParagraphsWin(doc, a, i);
    var ts := Paragraphs(doc, Within(a));
    forall k | 0 <= k < |ts| ensures ts[k] == [] {
      var j :| Selected(doc, Within(a), j) && doc[j].text == ts[k];
    }
  }

  /** Without article paragraphs, the paragraphs under `main` are used when there are any. */
  lemma MainFallback(doc: Document, m: nat)
    requires NoArticleParagraphs(doc)
    requires Selected(doc, Under("main"), m)
    ensures BodyTexts(doc) == Paragraphs(doc, Under("main"))
  {
    var article := Find(doc, "article");
    if article.Some? {
      assert forall i :: 0 <= i < |doc| ==> !Selected(doc, Within(article.value), i);
    }
  }

  /** Without article or `main` paragraphs, every paragraph of the page is used. */
  lemma PageFallback(doc: Document)
    requires NoArticleParagraphs(doc)
    requires forall i :: !Selected(doc, Under("main"), i)
    ensures BodyTexts(doc) == Paragraphs(doc, Anywhere)
  {
    var article := Find(doc, "article");
    if article.Some? {
      assert forall i :: 0 <= i < |doc| ==> !Selected(doc, Within(article.value), i);
    }
  }

  /** A page without paragraphs has an empty body. */
  lemma NoParagraphsGivesEmptyBody(doc: Document)
    requires forall i :: 0 <= i < |doc| ==> doc[i].tag != "p"
    ensures Body(doc) == []
  {
  }

  /** When no paragraph text holds a newline, the body's lines are exactly the
      non-empty paragraph texts chosen, so no line of the body is empty. */
  lemma BodyLines(doc: Document)
    requires forall i :: 0 <= i < |doc| ==> '\n' !in doc[i].text
    requires Body(doc) != []
    ensures Split(Body(doc), '\n') == NonEmpty(BodyTexts(doc))
    ensures forall k :: 0 <= k < |Split(Body(doc), '\n')| ==> Split(Body(doc), '\n')[k] != []
  {
    var ts := BodyTexts(doc);
    forall k | 0 <= k < |ts| ensures '\n' !in ts[k] {
      var i :| 0 <= i < |doc| && doc[i].tag == "p" && doc[i].text == ts[k];
    }
  }

  // ---- Summary ------------------------------------------------------------

  /** Sentences are unaffected by one leading space. */
  lemma SentencesAfterSpace(x: string)
    ensures Sentences([' '] + x) == Sentences(x)
  {
    var p := Split(x, '.');
    var first: seq<string> := [[' '] + p[0]];
    calc {
      Sentences([' '] + x);
      Clean(Split([' '] + x, '.'));
      { SplitAfterOther(' ', x, '.'); }
      Clean(first + p[1..]);
      { CleanAppend(first, p[1..]); }
      Clean(first) + Clean(p[1..]);
      { CleanOne([' '] + p[0]); CleanOne(p[0]); StripAfterSpace(p[0]); }
      Clean([p[0]]) + Clean(p[1..]);
      { CleanAppend([p[0]], p[1..]); }
      Clean([p[0]] + p[1..]);
      { assert [p[0]] + p[1..] == p; }
      Sentences(x);
    }
  }

  /** A sentence followed by a period and more text contributes itself, then
      the sentences of the rest. */
  lemma SentencesAfterSentence(s: string, u: string)
    requires IsSentence(s)
    ensures Sentences(s + "." + u) == [s] + Sentences(u)
  {
    SplitAfterPiece(s, '.', u);
    var p := Split(u, '.');
    assert ([s] + p)[1..] == p;
  }

  /** The sentences of two texts joined by a period are the sentences of the
      first, then those of the second. */
  lemma SentencesAppend(a: string, b: string)
    ensures Sentences(a + "." + b) == Sentences(a) + Sentences(b)
  {
    SplitAppend(a, '.', b);
    CleanAppend(Split(a, '.'), Split(b, '.'));
  }

  /** A text without a period is one piece: it gives its stripped self as a
      sentence, unless it is blank. */
  lemma SentencesOfPiece(t: string)
    requires '.' !in t
    ensures Sentences(t) == if Strip(t) == [] then [] else [Strip(t)]
  {
    SplitWithout(t, '.');
    CleanOne(t);
  }

  /** Reading the sentences back out of a summary-shaped text gives the
      sentences it was joined from. */
  lemma {:induction false} SentencesOfJoined(ss: seq<string>)
    requires |ss| >= 1
    requires forall k :: 0 <= k < |ss| ==> IsSentence(ss[k])
    ensures Sentences(Join(ss, ". ") + ".") == ss
    decreases |ss|
  {
    if |ss| == 1 {
      OneSentenceJoined(ss);
    } else {
      var tail := ss[1..];
      var x := Join(tail, ". ") + ".";
      calc {
        Sentences(Join(ss, ". ") + ".");
        { JoinedStep(ss); }
        Sentences(ss[0] + "." + ([' '] + x));
        { SentencesAfterSentence(ss[0], [' '] + x); }
        [ss[0]] + Sentences([' '] + x);
        { SentencesAfterSpace(x); }
        [ss[0]] + Sentences(x);
        { TailSentences(ss); SentencesOfJoined(tail); }
        [ss[0]] + tail;
        ss;
      }
    }
  }

  /** One sentence followed by a period reads back as that sentence. */
  lemma OneSentenceJoined(ss: seq<string>)
    requires |ss| == 1 && IsSentence(ss[0])
    ensures Sentences(Join(ss, ". ") + ".") == ss
  {
    assert ss == [ss[0]];
    assert Join(ss, ". ") == ss[0];
    SentenceThenPeriod(ss[0]);
  }

  /** A sentence followed by a period is that one sentence. */
  lemma SentenceThenPeriod(s: string)
    requires IsSentence(s)
    ensures Sentences(s + ".") == [s]
  {
    var empty: string := [];
    calc {
      Sentences(s + ".");
      { assert s + "." == s + "." + empty; }
      Sentences(s + "." + empty);
      { SentencesAppend(s, empty); }
      Sentences(s) + Sentences(empty);
      { SentencesOfPiece(s); assert Strip(s) == s; NoSentencesInEmpty(); }
      [s] + [];
      [s];
    }
  }

  /** A summary-shaped text of two or more sentences is the first sentence, a
      period, a space and the summary-shaped text of the rest. */
  lemma JoinedStep(ss: seq<string>)
    requires |ss| >= 2
    ensures Join(ss, ". ") + "." == ss[0] + "." + ([' '] + (Join(ss[1..], ". ") + "."))
  {
    assert Join(ss, ". ") == ss[0] + ". " + Join(ss[1..], ". ");
  }

  /** The tail of a list of sentences is a list of sentences. */
  lemma TailSentences(ss: seq<string>)
    requires |ss| >= 1
    requires forall k :: 0 <= k < |ss| ==> IsSentence(ss[k])
    ensures forall k :: 0 <= k < |ss[1..]| ==> IsSentence(ss[1..][k])
  {
    forall k | 0 <= k < |ss[1..]| ensures IsSentence(ss[1..][k]) {
      assert ss[1..][k] == ss[k + 1];
    }
  }

  /** The sentences of the summary are exactly the first (at most four)
      sentences of the body. */
  lemma {:induction false} SummaryRoundTrip(body: string)
    ensures Sentences(Summary(body)) == Take(Sentences(body), 4)
  {
    if Sentences(body) == [] {
      SummaryOfNoSentences(body);
    } else {
      SummaryOfSentences(body);
    }
  }

  /** A body without sentences has an empty summary, itself without sentences. */
  lemma SummaryOfNoSentences(body: string)
    requires Sentences(body) == []
    ensures Sentences(Summary(body)) == Take(Sentences(body), 4)
  {
    NoSentencesInEmpty();
  }

  /** A body with sentences: the summary is their join, read back by `SentencesOfJoined`. */
  lemma SummaryOfSentences(body: string)
    requires Sentences(body) != []
    ensures Sentences(Summary(body)) == Take(Sentences(body), 4)
  {
    var all := Sentences(body);
    var kept := Take(all, 4);
    assert body != [];
    assert Summary(body) == Join(kept, ". ") + ".";
    forall k | 0 <= k < |kept| ensures IsSentence(kept[k]) {
      assert kept[k] == all[k];
    }
    SentencesOfJoined(kept);
  }

  /** The empty text has no sentences. */
  lemma NoSentencesInEmpty()
    ensures Sentences([]) == []
  {
    var p := Split([], '.');
    assert p == [[]];
    assert Stripped(p[0]);
    assert Strip(p[0]) == [];
    assert p[1..] == [];
  }

  /** A body with four or more sentences is summarised by exactly its first four. */
  lemma SummaryKeepsFirstFour(body: string)
    requires |Sentences(body)| >= 4
    ensures Sentences(Summary(body)) == Sentences(body)[..4]
    ensures Summary(body) == Join(Sentences(body)[..4], ". ") + "."
  {
    var all := Sentences(body);
    assert Take(all, 4) == all[..4] by {
      TakeAtLeast(all, 4);
    }
    SummaryRoundTrip(body);
    SummaryOfFour(body);
  }

  /** Python's `xs[:n]` on a list at least `n` long is its first `n` items. */
  lemma TakeAtLeast<T>(xs: seq<T>, n: nat)
    requires |xs| >= n
    ensures Take(xs, n) == xs[..n]
  {
  }

  /** With four sentences or more, the summary is the first four joined, then a period. */
  lemma SummaryOfFour(body: string)
    requires |Sentences(body)| >= 4
    ensures Summary(body) == Join(Sentences(body)[..4], ". ") + "."
  {
    var all := Sentences(body);
    var kept := Take(all, 4);
    assert body != [] by {
      NoSentencesInEmpty();
    }
    assert kept == all[..4] && kept != [] by {
      TakeAtLeast(all, 4);
    }
    assert Summary(body) == Join(kept, ". ") + ".";
  }

  /** Summarising a summary changes nothing. */
  lemma SummaryIdempotent(body: string)
    ensures Summary(Summary(body)) == Summary(body)
  {
    SummaryRoundTrip(body);
  }
}

=== FILE: fetching.dfy ===
/** One fetch of a page and how the routes judge its outcome (app.py:40-50,
    app.py:68-77, app.py:122-126, app.py:151-159). The network call itself is a
    parameter: a `Fetcher` maps a URL to what `requests.get` produced for it. */
module Fetching {
  import opened Results
  import opened Text
  import opened Html

  /** A response body: its raw text, what the `<title>` regex captured from it
      (if it matched), and the elements the HTML parser found in it. */
  datatype Page = Page(text: string, titleCapture: Option<string>, doc: Document)

  /** An HTTP response after redirects: its status, the URL it came from, its body. */
  datatype Response = Response(status: nat, finalUrl: string, page: Page)

  /** What one call of `requests.get` gave: an exception with its message, or a response. */
  datatype Fetched = Raised(message: string) | Received(response: Response)

  type Fetcher = string -> Fetched

  /** How a response is judged: refused for want of credentials, answered
      with a status other than 200, or accepted. */
  datatype Verdict = Denied | BadStatus(code: nat) | Accepted

  /** The only sign of a rejected cookie: status 401 or 403, or a final URL
      holding "login" anywhere (case-sensitively). */
  predicate LooksUnauthorized(status: nat, finalUrl: string) {
    status == 401 || status == 403 || Contains(finalUrl, "login")
  }

  /** The checks of app.py:46-50 and app.py:123-126, in their order. */
  function Classify(status: nat, finalUrl: string): (v: Verdict)
    ensures v == Denied <==> LooksUnauthorized(status, finalUrl)
    ensures v == Accepted <==> status == 200 && !Contains(finalUrl, "login")
    ensures v.BadStatus? ==> v.code == status && status != 200
  {
    if LooksUnauthorized(status, finalUrl) then Denied
    else if status != 200 then BadStatus(status)
    else Accepted
  }

  /** A redirect to any URL with "login" in it is refused, whatever the status. */
  lemma LoginAnywhereIsDenied(status: nat, before: string, after: string)
    ensures Classify(status, before + "login" + after) == Denied
  {
    var url := before + "login" + after;
    assert url[|before|..|before| + 5] == "login";
    assert OccursAt(url, "login", |before|);
    ContainsIffOccurs(url, "login");
  }

  /** The test is case-sensitive: a redirect to "/Login" with status 200 is accepted. */
  lemma CapitalisedLoginIsAccepted()
    ensures Classify(200, "/Login") == Accepted
  {
    var url := "/Login";
    assert url[..5][0] == '/';
    assert url[1..][..5][0] == 'L';
    assert url[1..][1..] == "ogin";
    ShorterHoldsNothing("ogin", "login");
  }

  /** The ways a route can answer without its success payload. */
  datatype Failure =
    | MissingUrl
    | MissingUrlParams
    | RequestError(message: string, fetchedUrl: string)
    | Unauthorized(fetchedUrl: string, finalUrl: string)
    | HttpError(code: nat, fetchedUrl: string, finalUrl: string)
      /** An exception the route lets escape; the web framework answers 500. */
    | Uncaught(message: string)
  {
    /** The HTTP status the route answers with. */
    function Status(): nat {
      match this
      case MissingUrl => 400
      case MissingUrlParams => 400
      case RequestError(_, _) => 502
      case Unauthorized(_, _) => 401
      case HttpError(code, _, _) => code
      case Uncaught(_) => 500
    }

    /** The reply's `error` field. */
    function Error(): string {
      match this
      case MissingUrl => "missing url"
      case MissingUrlParams => "missing url params"
      case RequestError(m, _) => "request_error: " + m
      case Unauthorized(_, _) => "unauthorized"
      case HttpError(code, _, _) => "http_" + Decimal(code)
      case Uncaught(m) => m
    }
  }

  /** The error text of an HTTP failure names the status the reply carries:
      reading the digits after "http_" gives it back. */
  lemma HttpErrorNamesStatus(f: Failure)
    requires f.HttpError?
    ensures StartsWith(f.Error(), "http_")
    ensures AllDigits(f.Error()[5..]) && ParseDecimal(f.Error()[5..]) == f.Status()
  {
    assert f.Error()[5..] == Decimal(f.code);
    DecimalRoundTrip(f.code);
  }

  /** The shared response check of `fm_digest` and `fm_article`: refuse an
      unauthorized response with 401, pass a non-200 status through, accept
      the rest. */
  function Screen(fetchedUrl: string, r: Response): (res: Result<Response, Failure>)
    ensures res.Success? <==> Classify(r.status, r.finalUrl) == Accepted
    ensures res.Success? ==> res.value == r
    ensures res.Failure? ==> (res.error.Unauthorized? || res.error.HttpError?)
    ensures res.Failure? ==> (res.error.Unauthorized? <==> LooksUnauthorized(r.status, r.finalUrl))
    ensures res.Failure? && res.error.HttpError? ==> res.error.code == r.status
    ensures res.Failure? ==> res.error.fetchedUrl == fetchedUrl && res.error.finalUrl == r.finalUrl
    ensures res.Failure? ==> res.error.Status() != 200
    ensures res.Failure? ==>
      res.error.Status() == (if LooksUnauthorized(r.status, r.finalUrl) then 401 else r.status)
  {
    match Classify(r.status, r.finalUrl)
    case Denied => Failure(Unauthorized(fetchedUrl, r.finalUrl))
    case BadStatus(code) => Failure(HttpError(code, fetchedUrl, r.finalUrl))
    case Accepted => Success(r)
  }
}

=== FILE: html.dfy ===
/** The parsed page as the extractor sees it: the elements in document order,
    each with its tag name, its text, and the positions of the elements that
    enclose it. Parsing itself, and how an element's text is gathered from its
    descendants, belong to the HTML parser and are not modelled. */
module Html {
  import opened Results

  /** One element: `ancestors` holds the positions, in the same document, of
      the elements it sits inside. */
  datatype Element = Element(tag: string, text: string, ancestors: seq<nat>)

  type Document = seq<Element>

  /** Position `i` holds the first element of the document tagged `tag`. */
  ghost predicate IsFirst(doc: Document, tag: string, i: int) {
    0 <= i < |doc| && doc[i].tag == tag && forall k :: 0 <= k < i ==> doc[k].tag != tag
  }

  /** No element of the document is tagged `tag`. */
  ghost predicate Absent(doc: Document, tag: string) {
    forall k :: 0 <= k < |doc| ==> doc[k].tag != tag
  }

  /** The parser's `find(tag)`: the first element tagged `tag`, if any. */
  function Find(doc: Document, tag: string): (r: Option<nat>)
    ensures r.Some? <==> !Absent(doc, tag)
    ensures r.Some? ==> IsFirst(doc, tag, r.value)
    ensures forall i :: IsFirst(doc, tag, i) ==> r == Some(i)
  {
    var r := FindFrom(doc, tag, 0);
    forall i | IsFirst(doc, tag, i) ensures r == Some(i) {
      FirstIsUnique(doc, tag, i, r);
    }
    r
  }

  /** At most one position is the first with a given tag. */
  lemma FirstIsUnique(doc: Document, tag: string, i: int, r: Option<nat>)
    requires IsFirst(doc, tag, i)
    requires r.Some? ==> 0 <= r.value < |doc| && doc[r.value].tag == tag
    requires r.Some? ==> forall k :: 0 <= k < r.value ==> doc[k].tag != tag
    requires r.None? ==> forall k :: 0 <= k < |doc| ==> doc[k].tag != tag
    ensures r == Some(i)
  {
  }

  function FindFrom(doc: Document, tag: string, start: nat): (r: Option<nat>)
    requires start <= |doc|
    ensures r.Some? ==> start <= r.value < |doc| && doc[r.value].tag == tag
    ensures r.Some? ==> forall k :: start <= k < r.value ==> doc[k].tag != tag
    ensures r.None? ==> forall k :: start <= k < |doc| ==> doc[k].tag != tag
    decreases |doc| - start
  {
    if start == |doc| then None
    else if doc[start].tag == tag then Some(start)
    else FindFrom(doc, tag, start + 1)
  }

  /** Where paragraphs are looked for: inside the element at a given position,
      inside any element with a given tag, or anywhere. */
  datatype Scope = Within(container: nat) | Under(tag: string) | Anywhere

  predicate InScope(doc: Document, e: Element, scope: Scope) {
    match scope
    case Within(c) => c in e.ancestors
    case Under(t) =>
      exists k :: 0 <= k < |e.ancestors| && e.ancestors[k] < |doc| && doc[e.ancestors[k]].tag == t
    case Anywhere => true
  }

  /** Position `i` holds a `p` element in the scope. */
  predicate Selected(doc: Document, scope: Scope, i: int) {
    0 <= i < |doc| && doc[i].tag == "p" && InScope(doc, doc[i], scope)
  }

  /** The texts of the `p` elements in the scope, in document order: the
      parser's `find_all("p")` on a container, `select("main p")`, or
      `find_all("p")` on the whole page. */
  function Paragraphs(doc: Document, scope: Scope): (r: seq<string>)
    ensures r == [] <==> forall i :: 0 <= i < |doc| ==> !Selected(doc, scope, i)
    ensures forall k :: 0 <= k < |r| ==> exists i :: Selected(doc, scope, i) && doc[i].text == r[k]
    ensures forall i :: Selected(doc, scope, i) ==> doc[i].text in r
  {
    ParagraphsFromStart(doc, scope);
    ParagraphsFrom(doc, scope, 0)
  }

  /** The scan behind `Paragraphs`, from position `start` on. */
  function ParagraphsFrom(doc: Document, scope: Scope, start: nat): seq<string>
    requires start <= |doc|
    decreases |doc| - start
  {
    if start == |doc| then []
    else
      var rest := ParagraphsFrom(doc, scope, start + 1);
      if Selected(doc, scope, start) then [doc[start].text] + rest else rest
  }

  /** The whole-document scan keeps exactly the texts of the selected positions. */
  lemma ParagraphsFromStart(doc: Document, scope: Scope)
    ensures var r := ParagraphsFrom(doc, scope, 0);
      && (r == [] <==> forall i :: 0 <= i < |doc| ==> !Selected(doc, scope, i))
      && (forall k :: 0 <= k < |r| ==> exists i :: Selected(doc, scope, i) && doc[i].text == r[k])
      && (forall i :: Selected(doc, scope, i) ==> doc[i].text in r)
  {
    var ps := SelectedFrom(doc, scope, 0);
    ParagraphsFollowPositions(doc, scope, 0);
    TextsAt(doc, ps);
    SelectedFromSpec(doc, scope, 0);
    ScanTextsSelected(doc, scope, ps);
    ScanKeepsSelected(doc, scope, ps);
    ScanEmpty(doc, scope, ps);
  }

  /** Every text of the scan comes from a selected position. */
  lemma ScanTextsSelected(doc: Document, scope: Scope, ps: seq<nat>)
    requires ps == SelectedFrom(doc, scope, 0) && SelectedFromHolds(doc, scope, 0)
    requires ParagraphsFrom(doc, scope, 0) == Texts(doc, ps)
    requires forall k :: 0 <= k < |ps| ==> Texts(doc, ps)[k] == doc[ps[k]].text
    ensures var r := ParagraphsFrom(doc, scope, 0);
      forall k :: 0 <= k < |r| ==> exists i :: Selected(doc, scope, i) && doc[i].text == r[k]
  {
    var r := ParagraphsFrom(doc, scope, 0);
    forall k | 0 <= k < |r| ensures exists i :: Selected(doc, scope, i) && doc[i].text == r[k] {
      assert Selected(doc, scope, ps[k]) && doc[ps[k]].text == r[k];
    }
  }

  /** The text of every selected position is in the scan. */
  lemma ScanKeepsSelected(doc: Document, scope: Scope, ps: seq<nat>)
    requires ps == SelectedFrom(doc, scope, 0) && SelectedFromHolds(doc, scope, 0)
    requires ParagraphsFrom(doc, scope, 0) == Texts(doc, ps)
    requires forall k :: 0 <= k < |ps| ==> Texts(doc, ps)[k] == doc[ps[k]].text
    ensures forall i :: Selected(doc, scope, i) ==> doc[i].text in ParagraphsFrom(doc, scope, 0)
  {
    var r := ParagraphsFrom(doc, scope, 0);
    forall i | Selected(doc, scope, i) ensures doc[i].text in r {
      var k :| 0 <= k < |ps| && ps[k] == i;
      assert r[k] == doc[i].text;
    }
  }

  /** The scan is empty exactly when no position is selected. */
  lemma ScanEmpty(doc: Document, scope: Scope, ps: seq<nat>)
    requires ps == SelectedFrom(doc, scope, 0) && SelectedFromHolds(doc, scope, 0)
    requires ParagraphsFrom(doc, scope, 0) == Texts(doc, ps)
    ensures ParagraphsFrom(doc, scope, 0) == [] <==> forall i :: 0 <= i < |doc| ==> !Selected(doc, scope, i)
  {
    if ps != [] {
      assert Selected(doc, scope, ps[0]);
    }
  }

  /** The positions of the `p` elements in the scope from `start` on, in
      document order; `SelectedFromSpec` states what it holds. */
  function SelectedFrom(doc: Document, scope: Scope, start: nat): (ps: seq<nat>)
    requires start <= |doc|
    ensures forall k :: 0 <= k < |ps| ==> start <= ps[k] < |doc|
    decreases |doc| - start
  {
    if start == |doc| then []
    else
      var rest := SelectedFrom(doc, scope, start + 1);
      if Selected(doc, scope, start) then [start] + rest else rest
  }

  /** Each selected position from `start` on appears in `SelectedFrom`
      exactly once, in increasing order, and nothing else does. */
  lemma {:induction false} SelectedFromSpec(doc: Document, scope: Scope, start: nat)
    requires start <= |doc|
    ensures SelectedFromHolds(doc, scope, start)
    decreases |doc| - start
  {
    if start < |doc| {
      SelectedFromSpec(doc, scope, start + 1);
      SelectedFromStep(doc, scope, start);
    }
  }

  /** `SelectedFrom(doc, scope, start)` lists the selected positions from
      `start` on, each once and in increasing order. */
  ghost predicate SelectedFromHolds(doc: Document, scope: Scope, start: nat)
    requires start <= |doc|
  {
    var ps := SelectedFrom(doc, scope, start);
    && (forall k :: 0 <= k < |ps| ==> Selected(doc, scope, ps[k]))
    && (forall k, l :: 0 <= k < l < |ps| ==> ps[k] < ps[l])
    && (forall i :: start <= i < |doc| && Selected(doc, scope, i) ==> i in ps)
  }

  /** One step of `SelectedFromSpec`. */
  lemma SelectedFromStep(doc: Document, scope: Scope, start: nat)
    requires start < |doc|
    requires SelectedFromHolds(doc, scope, start + 1)
    ensures SelectedFromHolds(doc, scope, start)
  {
    var rest := SelectedFrom(doc, scope, start + 1);
    if Selected(doc, scope, start) {
      var ps := [start] + rest;
      assert SelectedFrom(doc, scope, start) == ps;
      forall k | 0 < k < |ps| ensures ps[k] == rest[k - 1] {
      }
      assert forall i :: start < i < |doc| && Selected(doc, scope, i) ==> i in rest;
    }
  }

  /** The texts of the elements at positions `ps`, in the order of `ps`. */
  function Texts(doc: Document, ps: seq<nat>): (r: seq<string>)
    requires forall k :: 0 <= k < |ps| ==> ps[k] < |doc|
    ensures |r| == |ps|
  {
    if ps == [] then [] else [doc[ps[0]].text] + Texts(doc, ps[1..])
  }

  /** The `k`-th text is that of the element at the `k`-th position. */
  lemma {:induction false} TextsAt(doc: Document, ps: seq<nat>)
    requires forall k :: 0 <= k < |ps| ==> ps[k] < |doc|
    ensures forall k :: 0 <= k < |ps| ==> Texts(doc, ps)[k] == doc[ps[k]].text
  {
    if ps != [] {
      TextsAt(doc, ps[1..]);
    }
  }

  /** The paragraph texts are those of the selected positions, one text per
      position and in document order, so repeated texts are all kept. */
  lemma {:induction false} ParagraphsFollowPositions(doc: Document, scope: Scope, start: nat)
    requires start <= |doc|
    ensures ParagraphsFrom(doc, scope, start) == Texts(doc, SelectedFrom(doc, scope, start))
    decreases |doc| - start
  {
    if start == |doc| {
      PositionsEnd(doc, scope, start);
    } else {
      ParagraphsFollowPositions(doc, scope, start + 1);
      PositionsStep(doc, scope, start);
    }
  }

  /** Past the last position there are neither texts nor positions. */
  lemma PositionsEnd(doc: Document, scope: Scope, start: nat)
    requires start == |doc|
    ensures ParagraphsFrom(doc, scope, start) == Texts(doc, SelectedFrom(doc, scope, start))
  {
    assert SelectedFrom(doc, scope, start) == [];
  }

  /** One step of `ParagraphsFollowPositions`: a selected position adds its
      text in front, any other position adds nothing. */
  lemma PositionsStep(doc: Document, scope: Scope, start: nat)
    requires start < |doc|
    requires ParagraphsFrom(doc, scope, start + 1) == Texts(doc, SelectedFrom(doc, scope, start + 1))
    ensures ParagraphsFrom(doc, scope, start) == Texts(doc, SelectedFrom(doc, scope, start))
  {
    var ps := SelectedFrom(doc, scope, start + 1);
    if Selected(doc, scope, start) {
      var qs := [start] + ps;
      assert qs[0] == start && qs[1..] == ps;
      calc {
        ParagraphsFrom(doc, scope, start);
        [doc[start].text] + ParagraphsFrom(doc, scope, start + 1);
        [doc[start].text] + Texts(doc, ps);
        Texts(doc, qs);
      }
    }
  }

  /** `Paragraphs` keeps document order and repeats: there is one text per
      selected position, in increasing order of position, and the `k`-th
      text is that of the `k`-th selected position. */
  lemma ParagraphsInOrder(doc: Document, scope: Scope)
    ensures var ps := SelectedFrom(doc, scope, 0);
      && |Paragraphs(doc, scope)| == |ps|
      && (forall k :: 0 <= k < |ps| ==> Paragraphs(doc, scope)[k] == doc[ps[k]].text)
      && (forall k :: 0 <= k < |ps| ==> Selected(doc, scope, ps[k]))
      && (forall k, l :: 0 <= k < l < |ps| ==> ps[k] < ps[l])
      && (forall i :: Selected(doc, scope, i) ==> i in ps)
  {
    assert Paragraphs(doc, scope) == ParagraphsFrom(doc, scope, 0);
    ParagraphsFollowPositions(doc, scope, 0);
    TextsAt(doc, SelectedFrom(doc, scope, 0));
    SelectedFromSpec(doc, scope, 0);
  }
}

=== FILE: results.dfy ===
/** Optional values and success-or-failure results, standing in for Python's
    `None` and for the early-return error branches of the route handlers. */
module Results {

  datatype Option<+T> = None | Some(value: T) {

    /** The wrapped value, or `default` when there is none. */
    function GetOr(default: T): T {
      match this
      case Some(v) => v
      case None => default
    }
  }

  datatype Result<+R, +E> = Success(value: R) | Failure(error: E)
}

=== FILE: routes.dfy ===
/** The three content routes, `fm_digest` (app.py:13-62), `fm_article`
    (app.py:110-136) and `fm_batch` (app.py:138-161), as functions of the
    environment, the query arguments and the fetcher. A route's answer is a
    `Result`: the success payload, or the `Failure` it replies with. */
module Routes {
  import opened Results
  import opened Text
  import opened Html
  import opened Extract
  import opened Fetching
  import opened Targets

  /** The HTTP status a route answers with. */
  function StatusOf<T>(r: Result<T, Failure>): nat {
    match r
    case Success(_) => 200
    case Failure(f) => f.Status()
  }

  /** `fm_digest`'s success payload. */
  datatype DigestPage = DigestPage(fetchedUrl: string, finalUrl: string, length: nat, title: string)

  /** The digest's title: the `<title>` capture, stripped, or empty without a match. */
  function CapturedTitle(page: Page): (r: string)
    ensures Stripped(r)
    ensures page.titleCapture.Some? ==> r == Strip(page.titleCapture.value)
    ensures page.titleCapture.None? ==> r == []
  {
    match page.titleCapture
    case Some(t) => Strip(t)
    case None => []
  }

  /** `fm_digest`: fetch the target, report a raised fetch as a request error
      (502), screen the response, and on success report the final URL, the
      body's length and the page title. */
  function Digest(env: Env, queryPath: Option<string>, queryUrl: Option<string>, fetch: Fetcher): (r: Result<DigestPage, Failure>)
    ensures var target := DigestTarget(env, queryPath, queryUrl);
      match fetch(target)
      case Raised(m) => r == Failure(RequestError(m, target))
      case Received(resp) =>
        && (r.Success? <==> Classify(resp.status, resp.finalUrl) == Accepted)
        && (r.Success? ==> r.value == DigestPage(target, resp.finalUrl, |resp.page.text|, CapturedTitle(resp.page)))
        && (r.Failure? ==> r.error == Screen(target, resp).error)
  {
    var target := DigestTarget(env, queryPath, queryUrl);
    match fetch(target)
    case Raised(m) => Failure(RequestError(m, target))
    case Received(resp) =>
      match Screen(target, resp)
      case Failure(f) => Failure(f)
      case Success(_) => Success(DigestPage(target, resp.finalUrl, |resp.page.text|, CapturedTitle(resp.page)))
  }

  /** The statuses `fm_digest` can answer with, and when. */
  lemma DigestStatus(env: Env, queryPath: Option<string>, queryUrl: Option<string>, fetch: Fetcher)
    ensures var target := DigestTarget(env, queryPath, queryUrl);
      var status := StatusOf(Digest(env, queryPath, queryUrl, fetch));
      match fetch(target)
      case Raised(_) => status == 502
      case Received(resp) =>
        if LooksUnauthorized(resp.status, resp.finalUrl) then status == 401
        else status == resp.status
  {
  }

  /** `fm_article`'s success payload. */
  datatype ArticlePage = ArticlePage(url: string, finalUrl: string, title: string, summary: string, chars: nat)

  /** `fm_article`: without a `url` argument answer 400 and fetch nothing;
      otherwise resolve it against the base, fetch it (a raised fetch is not
      caught), screen the response and extract the article fields. */
  function Article(env: Env, queryUrl: Option<string>, fetch: Fetcher): (r: Result<ArticlePage, Failure>)
    ensures !Given(queryUrl) ==> r == Failure(MissingUrl)
    ensures Given(queryUrl) ==>
      var url := Resolve(Base(env), queryUrl.value);
      match fetch(url)
      case Raised(m) => r == Failure(Uncaught(m))
      case Received(resp) =>
        && (r.Success? <==> Classify(resp.status, resp.finalUrl) == Accepted)
        && (r.Success? ==> var f := ExtractFields(resp.page.doc);
              r.value == ArticlePage(url, resp.finalUrl, f.title, f.summary, |f.body|))
        && (r.Failure? ==> r.error == Screen(url, resp).error)
  {
    if !Given(queryUrl) then Failure(MissingUrl)
    else
      var url := Resolve(Base(env), queryUrl.value);
      match fetch(url)
      case Raised(m) => Failure(Uncaught(m))
      case Received(resp) =>
        match Screen(url, resp)
        case Failure(f) => Failure(f)
        case Success(_) =>
          var f := ExtractFields(resp.page.doc);
          Success(ArticlePage(url, resp.finalUrl, f.title, f.summary, |f.body|))
  }

  /** A missing or empty `url` answers 400 whatever the fetcher would have
      returned: nothing is fetched. */
  lemma ArticleNeedsUrl(env: Env, queryUrl: Option<string>, fetch1: Fetcher, fetch2: Fetcher)
    requires !Given(queryUrl)
    ensures Article(env, queryUrl, fetch1) == Article(env, queryUrl, fetch2)
    ensures StatusOf(Article(env, queryUrl, fetch1)) == 400
  {
  }

  /** One record of a batch: extracted fields, a refused response, or a raised fetch. */
  datatype Item =
    | Extracted(url: string, title: string, summary: string)
    | Rejected(url: string, status: nat, finalUrl: string)
    | Errored(url: string, error: string)
  {
    predicate Ok() {
      Extracted?
    }
  }

  /** The record `fm_batch` makes for one input URL. */
  function BatchItem(base: string, u: string, fetch: Fetcher): (it: Item)
    ensures it.url == Resolve(base, u)
    ensures it.Errored? <==> fetch(Resolve(base, u)).Raised?
    ensures it.Errored? ==> it.error == fetch(Resolve(base, u)).message
    ensures it.Ok() <==>
      && fetch(Resolve(base, u)).Received?
      && fetch(Resolve(base, u)).response.status == 200
      && !Contains(fetch(Resolve(base, u)).response.finalUrl, "login")
    ensures it.Extracted? ==> var f := ExtractFields(fetch(Resolve(base, u)).response.page.doc);
      it.title == f.title && it.summary == f.summary
    ensures it.Rejected? ==> it.status == fetch(Resolve(base, u)).response.status
    ensures it.Rejected? ==> it.finalUrl == fetch(Resolve(base, u)).response.finalUrl
  {
    var full := Resolve(base, u);
    match fetch(full)
    case Raised(m) => Errored(full, m)
    case Received(resp) =>
      if resp.status == 200 && !Contains(resp.finalUrl, "login") then
        var f := ExtractFields(resp.page.doc);
        Extracted(full, f.title, f.summary)
      else Rejected(full, resp.status, resp.finalUrl)
  }

  /** `fm_batch`: without any `url` argument answer 400; otherwise one record
      per argument, in order, duplicates included, with every failure kept as
      a record, and the reply itself successful. */
  method Batch(env: Env, urls: seq<string>, fetch: Fetcher) returns (r: Result<seq<Item>, Failure>)
    ensures urls == [] <==> r.Failure?
    ensures urls == [] ==> r.error == MissingUrlParams && StatusOf(r) == 400
    ensures r.Success? ==> |r.value| == |urls| && StatusOf(r) == 200
    ensures r.Success? ==> forall i :: 0 <= i < |urls| ==> r.value[i] == BatchItem(Base(env), urls[i], fetch)
  {
    if urls == [] {
      return Failure(MissingUrlParams);
    }
    var base := Base(env);
    var items: seq<Item> := [];
    for i := 0 to |urls|
      invariant |items| == i
      invariant forall j :: 0 <= j < i ==> items[j] == BatchItem(base, urls[j], fetch)
    {
      items := items + [BatchItem(base, urls[i], fetch)];
    }
    return Success(items);
  }

  /** A batch record for `u` succeeds exactly when `fm_article` would answer
      200 for `u` (a raised fetch fails both), with the same title and summary;
      a record refused for any
      reason but an unauthorized response carries the status `fm_article`
      would answer with. */
  lemma BatchItemMatchesArticle(env: Env, u: string, fetch: Fetcher)
    requires u != []
    ensures var it := BatchItem(Base(env), u, fetch);
      var page := Article(env, Some(u), fetch);
      && (it.Ok() <==> page.Success?)
      && (it.Ok() ==> it.title == page.value.title && it.summary == page.value.summary)
      && (it.Rejected? && !LooksUnauthorized(it.status, it.finalUrl) ==> StatusOf(page) == it.status)
  {
  }
}

=== FILE: targets.dfy ===
/** Which URL a route fetches (app.py:18-32, app.py:115-120, app.py:143-150).
    The environment variables and query arguments are passed in; reading them
    from the process and the request is left to the caller. */
module Targets {
  import opened Results
  import opened Text

  /** FM_BASE_URL when unset. */
  const DefaultBase := "https://www.finanzamille.com"

  /** FM_CONTENT_PATH when unset, and the last resort for the content path. */
  const DefaultPath := "/corso-1-1"

  /** The environment variables the routes consult, each possibly unset. */
  datatype Env = Env(baseUrl: Option<string>, contentPath: Option<string>)

  /** Python's truthiness of a string that may be `None`: present and non-empty. */
  predicate Given(o: Option<string>) {
    o.Some? && o.value != []
  }

  /** The site base: FM_BASE_URL, or the default, with every trailing "/" removed. */
  function Base(env: Env): (r: string)
    ensures StartsWith(env.baseUrl.GetOr(DefaultBase), r)
    ensures forall k :: |r| <= k < |env.baseUrl.GetOr(DefaultBase)| ==> env.baseUrl.GetOr(DefaultBase)[k] == '/'
    ensures r == [] || r[|r| - 1] != '/'
  {
    TrimEndChar(env.baseUrl.GetOr(DefaultBase), '/')
  }

  /** With FM_BASE_URL unset the base is the default site itself. */
  lemma DefaultBaseKept(env: Env)
    requires env.baseUrl.None?
    ensures Base(env) == DefaultBase
  {
    assert DefaultBase[|DefaultBase| - 1] == 'm';
  }

  /** The path with a leading "/" added when it has none; nothing else changes. */
  function Rooted(path: string): (r: string)
    ensures StartsWith(r, "/")
    ensures r == path <==> StartsWith(path, "/")
    ensures r == path || r == "/" + path
  {
    if StartsWith(path, "/") then path else "/" + path
  }

  /** The content path of `fm_digest`: the `path` query argument if given,
      else FM_CONTENT_PATH if set and non-empty, else the default path. */
  function ContentPath(env: Env, queryPath: Option<string>): (r: string)
    ensures r != []
    ensures Given(queryPath) ==> r == queryPath.value
    ensures !Given(queryPath) && Given(env.contentPath) ==> r == env.contentPath.value
    ensures !Given(queryPath) && !Given(env.contentPath) ==> r == DefaultPath
  {
    var configured := env.contentPath.GetOr(DefaultPath);
    if Given(queryPath) then queryPath.value
    else if configured != [] then configured
    else DefaultPath
  }

  /** The URL `fm_digest` fetches: the `url` query argument verbatim when
      given, otherwise the base followed by the rooted content path. */
  function DigestTarget(env: Env, queryPath: Option<string>, queryUrl: Option<string>): (r: string)
    ensures Given(queryUrl) ==> r == queryUrl.value
    ensures !Given(queryUrl) ==>
      && StartsWith(r, Base(env))
      && r[|Base(env)|..] == Rooted(ContentPath(env, queryPath))
      && |r| > |Base(env)| && r[|Base(env)|] == '/'
  {
    if Given(queryUrl) then queryUrl.value
    else
      var path := Rooted(ContentPath(env, queryPath));
      var r := Base(env) + path;
      assert r[..|Base(env)|] == Base(env);
      assert r[|Base(env)|..] == path;
      r
  }

  /** An explicit `url` makes the `path` argument irrelevant. */
  lemma UrlOverridesPath(env: Env, path1: Option<string>, path2: Option<string>, queryUrl: Option<string>)
    requires Given(queryUrl)
    ensures DigestTarget(env, path1, queryUrl) == DigestTarget(env, path2, queryUrl) == queryUrl.value
  {
  }

  /** The URL `fm_article` and `fm_batch` fetch for `url`: the base is put in
      front of a root-relative URL; anything else is fetched as given. */
  function Resolve(base: string, url: string): (r: string)
    ensures |url| <= |r| && r[|r| - |url|..] == url
    ensures r == url <==> !StartsWith(url, "/") || base == []
    ensures base != [] && !StartsWith(base, "/") ==> !StartsWith(r, "/")
    ensures StartsWith(url, "/") ==> StartsWith(r, base) && |r| == |base| + |url|
  {
    if StartsWith(url, "/") then base + url else url
  }

  /** Resolving twice is resolving once, for a base that is not itself root-relative. */
  lemma ResolveIdempotent(base: string, url: string)
    requires !StartsWith(base, "/")
    ensures Resolve(base, Resolve(base, url)) == Resolve(base, url)
  {
    if StartsWith(url, "/") && base != [] {
      assert (base + url)[..1] == base[..1];
    }
  }

  /** Without a `url` argument, `fm_digest` fetches what `fm_article` would
      fetch for the rooted content path. */
  lemma DigestTargetIsResolvedPath(env: Env, queryPath: Option<string>, queryUrl: Option<string>)
    requires !Given(queryUrl)
    ensures DigestTarget(env, queryPath, queryUrl) == Resolve(Base(env), Rooted(ContentPath(env, queryPath)))
  {
  }
}

=== FILE: text.dfy ===
/** The handful of Python string operations the service relies on:
    `str.strip()`, `str.rstrip(c)`, `str.startswith`, the substring test `p in s`,
    `str.split(c)`, `sep.join(parts)` and `str(n)` for a non-negative integer. */
module Text {

  /** Python's `str.isspace()` on one character: exactly the characters that
      `str.strip()` with no argument removes. */
  predicate IsSpace(c: char) {
    || ('\U{9}' <= c <= '\U{D}')
    || ('\U{1C}' <= c <= '\U{20}')
    || c == '\U{85}' || c == '\U{A0}' || c == '\U{1680}'
    || ('\U{2000}' <= c <= '\U{200A}')
    || c == '\U{2028}' || c == '\U{2029}' || c == '\U{202F}' || c == '\U{205F}'
    || c == '\U{3000}'
  }

  /** Every character is whitespace (the empty string included). */
  predicate Blank(s: string) {
    forall k :: 0 <= k < |s| ==> IsSpace(s[k])
  }

  /** Neither end of `s` is whitespace: the shape `str.strip()` leaves. */
  predicate Stripped(s: string) {
    s == [] || (!IsSpace(s[0]) && !IsSpace(s[|s| - 1]))
  }

  /** Python's `str.lstrip()`: drops the leading whitespace, keeps a suffix. */
  function TrimStart(s: string): (r: string)
    ensures |r| <= |s| && r == s[|s| - |r|..]
    ensures Blank(s[..|s| - |r|])
    ensures r == [] || !IsSpace(r[0])
    decreases |s|
  {
    if |s| > 0 && IsSpace(s[0]) then
      var r := TrimStart(s[1..]);
      assert s[1..][..|s| - 1 - |r|] == s[1..|s| - |r|];
      r
    else s
  }

  /** Python's `str.rstrip()`: drops the trailing whitespace, keeps a prefix. */
  function TrimEnd(s: string): (r: string)
    ensures |r| <= |s| && r == s[..|r|]
    ensures Blank(s[|r|..])
    ensures r == [] || !IsSpace(r[|r| - 1])
    decreases |s|
  {
    if |s| > 0 && IsSpace(s[|s| - 1]) then
      var r := TrimEnd(s[..|s| - 1]);
      assert s[|r|..] == s[..|s| - 1][|r|..] + [s[|s| - 1]];
      r
    else s
  }

  /** `r` is the slice of `s` at position `i`, with only whitespace around it. */
  ghost predicate TrimmedAt(s: string, r: string, i: int) {
    0 <= i <= |s| - |r| && r == s[i..i + |r|] && Blank(s[..i]) && Blank(s[i + |r|..])
  }

  /** Python's `str.strip()`: the longest stretch of `s` that neither starts
      nor ends with whitespace, left after removing whitespace at both ends. */
  function Strip(s: string): (r: string)
    ensures Stripped(r)
    ensures Stripped(s) ==> r == s
    ensures forall ch :: ch in r ==> ch in s
  {
    StripIsStripped(s);
    StripKeepsChars(s);
    StripKeepsStripped(s);
    TrimEnd(TrimStart(s))
  }

  /** What `Strip` removes: `Strip(s)` is a slice of `s` with only whitespace
      on either side of it, and nothing is left exactly when `s` is blank. */
  lemma StripSpec(s: string)
    ensures exists i :: TrimmedAt(s, Strip(s), i)
    ensures Strip(s) == [] <==> Blank(s)
  {
    assert Strip(s) == TrimEnd(TrimStart(s));
    StripIsSlice(s);
    StripEmptyIffBlank(s);
  }

  lemma StripIsStripped(s: string)
    ensures Stripped(TrimEnd(TrimStart(s)))
  {
    var t := TrimStart(s);
    var r := TrimEnd(t);
    if r != [] {
      assert r[0] == t[0];
    }
  }

  /** `Strip` keeps a slice of `s` with only whitespace cut away on either side. */
  lemma StripIsSlice(s: string)
    ensures exists i :: TrimmedAt(s, TrimEnd(TrimStart(s)), i)
  {
    var t := TrimStart(s);
    var r := TrimEnd(t);
    var i := |s| - |t|;
    assert t == s[i..];
    assert s[i + |r|..] == t[|r|..];
    assert TrimmedAt(s, r, i);
  }

  /** `Strip` leaves nothing exactly when the whole string is whitespace. */
  lemma StripEmptyIffBlank(s: string)
    ensures TrimEnd(TrimStart(s)) == [] <==> Blank(s)
  {
    var t := TrimStart(s);
    var i := |s| - |t|;
    assert t == s[i..];
    BlankSplit(s, i);
    assert t[0..] == t;
  }

  /** `Strip` introduces no character that `s` lacks. */
  lemma StripKeepsChars(s: string)
    ensures forall ch :: ch in TrimEnd(TrimStart(s)) ==> ch in s
  {
    var t := TrimStart(s);
    SliceKeeps(s, |s| - |t|, |s|);
    SliceKeeps(t, 0, |TrimEnd(t)|);
  }

  /** A slice holds only elements of the sequence it is cut from. */
  lemma SliceKeeps<T>(s: seq<T>, i: nat, j: nat)
    requires i <= j <= |s|
    ensures forall x :: x in s[i..j] ==> x in s
  {
    forall x | x in s[i..j] ensures x in s {
      var k :| 0 <= k < j - i && s[i..j][k] == x;
      assert s[i + k] == x;
    }
  }

  /** `Strip` leaves an already stripped string alone. */
  lemma StripKeepsStripped(s: string)
    ensures Stripped(s) ==> TrimEnd(TrimStart(s)) == s
  {
  }

  /** A string is blank exactly when both sides of any cut are. */
  lemma BlankSplit(s: string, i: nat)
    requires i <= |s|
    ensures Blank(s) <==> Blank(s[..i]) && Blank(s[i..])
  {
    if Blank(s[..i]) && Blank(s[i..]) {
      forall k | 0 <= k < |s| ensures IsSpace(s[k]) {
        if k < i { assert s[k] == s[..i][k]; } else { assert s[k] == s[i..][k - i]; }
      }
    }
  }

  /** A leading character other than the separator joins the first piece. */
  lemma SplitAfterOther(ch: char, x: string, c: char)
    requires ch != c
    ensures Split([ch] + x, c) == [[ch] + Split(x, c)[0]] + Split(x, c)[1..]
  {
    DropAppend([ch], x);
  }

  /** Stripping ignores one extra leading space. */
  lemma StripAfterSpace(p: string)
    ensures Strip([' '] + p) == Strip(p)
  {
    assert ([' '] + p)[1..] == p;
  }

  /** Python's `str.rstrip(c)`: drops every trailing `c`, keeps a prefix. */
  function TrimEndChar(s: string, c: char): (r: string)
    ensures |r| <= |s| && r == s[..|r|]
    ensures forall k :: |r| <= k < |s| ==> s[k] == c
    ensures r == [] || r[|r| - 1] != c
    decreases |s|
  {
    if |s| > 0 && s[|s| - 1] == c then TrimEndChar(s[..|s| - 1], c) else s
  }

  /** Python's `s.startswith(p)`. */
  predicate StartsWith(s: string, p: string) {
    |p| <= |s| && s[..|p|] == p
  }

  /** `p` occurs in `s` starting at position `i`. */
  ghost predicate OccursAt(s: string, p: string, i: int) {
    0 <= i && i + |p| <= |s| && s[i..i + |p|] == p
  }

  /** Python's substring test `p in s`, searching from the left. */
  predicate Contains(s: string, p: string)
    decreases |s|
  {
    StartsWith(s, p) || (|s| > 0 && Contains(s[1..], p))
  }

  /** The search finds `p` exactly when `p` occurs somewhere in `s`. */
  lemma {:induction false} ContainsIffOccurs(s: string, p: string)
    ensures Contains(s, p) <==> exists i :: OccursAt(s, p, i)
    decreases |s|
  {
    if StartsWith(s, p) {
      assert OccursAt(s, p, 0);
    } else if |s| > 0 {
      ContainsIffOccurs(s[1..], p);
      if Contains(s[1..], p) {
        var i :| OccursAt(s[1..], p, i);
        assert s[1..][i..i + |p|] == s[i + 1..i + 1 + |p|];
        assert OccursAt(s, p, i + 1);
      } else {
        forall i | 1 <= i && OccursAt(s, p, i) ensures OccursAt(s[1..], p, i - 1) {
          assert s[1..][i - 1..i - 1 + |p|] == s[i..i + |p|];
        }
      }
    }
  }

  /** A string shorter than `p` does not contain it. */
  lemma {:induction false} ShorterHoldsNothing(s: string, p: string)
    requires |s| < |p|
    ensures !Contains(s, p)
    decreases |s|
  {
    if |s| > 0 {
      ShorterHoldsNothing(s[1..], p);
    }
  }

  /** Python's `s.split(c)`: the pieces between the occurrences of `c`, in
      order; always at least one piece, none of which contains `c`. */
  function Split(s: string, c: char): (r: seq<string>)
    ensures |r| >= 1
    ensures forall k :: 0 <= k < |r| ==> c !in r[k]
    decreases |s|
  {
    if s == [] then [[]]
    else
      var rest := Split(s[1..], c);
      if s[0] == c then [[]] + rest
      else [[s[0]] + rest[0]] + rest[1..]
  }

  /** Python's `sep.join(parts)`. */
  function Join(parts: seq<string>, sep: string): string
    decreases |parts|
  {
    if |parts| == 0 then []
    else if |parts| == 1 then parts[0]
    else parts[0] + sep + Join(parts[1..], sep)
  }

  /** Joining the pieces of a split with the separator gives the string back. */
  lemma {:induction false} JoinOfSplit(s: string, c: char)
    ensures Join(Split(s, c), [c]) == s
    decreases |s|
  {
    if s != [] {
      var rest := Split(s[1..], c);
      JoinOfSplit(s[1..], c);
      if s[0] == c {
        assert Split(s, c) == [[]] + rest;
        assert ([[]] + rest)[1..] == rest;
        assert s == [c] + s[1..];
      } else if |rest| == 1 {
        assert Split(s, c) == [[s[0]] + rest[0]];
        assert s == [s[0]] + s[1..];
      } else {
        assert Split(s, c) == [[s[0]] + rest[0]] + rest[1..];
        assert ([[s[0]] + rest[0]] + rest[1..])[1..] == rest[1..];
        assert s == [s[0]] + s[1..];
      }
    }
  }

  /** A piece without the separator splits to itself. */
  lemma {:induction false} SplitWithout(p: string, c: char)
    requires c !in p
    ensures Split(p, c) == [p]
    decreases |p|
  {
    if p != [] {
      SplitWithout(p[1..], c);
      assert [p[0]] + p[1..] == p;
    }
  }

  /** Splitting `p + c + u`, where `p` has no `c`, yields `p` and then the pieces of `u`. */
  lemma {:induction false} SplitAfterPiece(p: string, c: char, u: string)
    requires c !in p
    ensures Split(p + [c] + u, c) == [p] + Split(u, c)
    decreases |p|
  {
    var s := p + [c] + u;
    if p == [] {
      assert s[1..] == u;
    } else {
      assert s[1..] == p[1..] + [c] + u;
      SplitAfterPiece(p[1..], c, u);
      assert [p[0]] + p[1..] == p;
    }
  }

  /** Splitting at one occurrence of the separator: the pieces of the text
      before it, then the pieces of the text after it. */
  lemma {:induction false} SplitAppend(a: string, c: char, b: string)
    ensures Split(a + [c] + b, c) == Split(a, c) + Split(b, c)
    decreases |a|
  {
    if a == [] {
      assert a + [c] + b == [c] + b;
      assert ([c] + b)[1..] == b;
    } else {
      SplitAppend(a[1..], c, b);
      if a[0] == c {
        SplitAppendAtSeparator(a, c, b);
      } else {
        SplitAppendAtOther(a, c, b);
      }
    }
  }

  /** Concatenation is associative; stated once so that proofs about
      particular sequences need not compare them element by element. */
  lemma AppendAssoc<T>(x: seq<T>, y: seq<T>, z: seq<T>)
    ensures x + (y + z) == (x + y) + z
  {
  }

  /** Dropping the first element of a concatenation drops it from the first part. */
  lemma DropAppend<T>(x: seq<T>, y: seq<T>)
    requires x != []
    ensures (x + y)[0] == x[0] && (x + y)[1..] == x[1..] + y
  {
  }

  /** The step of `SplitAppend` when `a` starts with the separator. */
  lemma SplitAppendAtSeparator(a: string, c: char, b: string)
    requires a != [] && a[0] == c
    requires Split(a[1..] + [c] + b, c) == Split(a[1..], c) + Split(b, c)
    ensures Split(a + [c] + b, c) == Split(a, c) + Split(b, c)
  {
    var s := a + [c] + b;
    DropPastSeparator(a, c, b);
    calc {
      Split(s, c);
      [[]] + Split(s[1..], c);
      [[]] + (Split(a[1..], c) + Split(b, c));
      { AppendAssoc([[]], Split(a[1..], c), Split(b, c)); }
      ([[]] + Split(a[1..], c)) + Split(b, c);
      Split(a, c) + Split(b, c);
    }
  }

  /** `a + [c] + b` loses its first character from `a`. */
  lemma DropPastSeparator(a: string, c: char, b: string)
    requires a != []
    ensures (a + [c] + b)[0] == a[0] && (a + [c] + b)[1..] == a[1..] + [c] + b
  {
    AppendAssoc(a, [c], b);
    AppendAssoc(a[1..], [c], b);
    DropAppend(a, [c] + b);
  }

  /** The step of `SplitAppend` when `a` starts with another character. */
  lemma SplitAppendAtOther(a: string, c: char, b: string)
    requires a != [] && a[0] != c
    requires Split(a[1..] + [c] + b, c) == Split(a[1..], c) + Split(b, c)
    ensures Split(a + [c] + b, c) == Split(a, c) + Split(b, c)
  {
    var s := a + [c] + b;
    var front := Split(a[1..], c);
    var back := Split(b, c);
    DropPastSeparator(a, c, b);
    var rest := Split(s[1..], c);
    DropAppend(front, back);
    calc {
      Split(s, c);
      [[a[0]] + rest[0]] + rest[1..];
      [[a[0]] + front[0]] + (front[1..] + back);
      { AppendAssoc([[a[0]] + front[0]], front[1..], back); }
      ([[a[0]] + front[0]] + front[1..]) + back;
      Split(a, c) + back;
    }
  }

  /** A join is at least as long as its first part. */
  lemma JoinStartsWithFirst(parts: seq<string>, sep: string)
    requires |parts| >= 1
    ensures |Join(parts, sep)| >= |parts[0]|
  {
  }

  /** Splitting a join of separator-free pieces gives the pieces back. */
  lemma {:induction false} SplitOfJoin(parts: seq<string>, c: char)
    requires |parts| >= 1
    requires forall k :: 0 <= k < |parts| ==> c !in parts[k]
    ensures Split(Join(parts, [c]), c) == parts
    decreases |parts|
  {
    if |parts| == 1 {
      SplitWithout(parts[0], c);
    } else {
      SplitOfJoin(parts[1..], c);
      SplitAfterPiece(parts[0], c, Join(parts[1..], [c]));
      assert [parts[0]] + parts[1..] == parts;
    }
  }

  /** The decimal digit character for `d`. */
  function DigitChar(d: nat): char
    requires d < 10
  {
    "0123456789"[d]
  }

  predicate IsDigit(c: char) {
    '0' <= c <= '9'
  }

  predicate AllDigits(s: string) {
    forall k :: 0 <= k < |s| ==> IsDigit(s[k])
  }

  /** Python's `str(n)` for a non-negative integer: its decimal digits. */
  function Decimal(n: nat): (r: string)
    ensures |r| >= 1 && AllDigits(r)
    ensures |r| > 1 ==> r[0] != '0'
  {
    if n < 10 then [DigitChar(n)]
    else Decimal(n / 10) + [DigitChar(n % 10)]
  }

  /** The number a string of decimal digits denotes. */
  function ParseDecimal(s: string): nat
    requires AllDigits(s)
  {
    if s == [] then 0
    else ParseDecimal(s[..|s| - 1]) * 10 + (s[|s| - 1] as int - '0' as int)
  }

  /** Reading back the decimal rendering of `n` gives `n`. */
  lemma {:induction false} DecimalRoundTrip(n: nat)
    ensures ParseDecimal(Decimal(n)) == n
  {
    if n >= 10 {
      DecimalRoundTrip(n / 10);
      var r := Decimal(n);
      assert r[..|r| - 1] == Decimal(n / 10);
    }
  }
}
